=== FILE: README.md ===
# Grammable: the gram access-control state machine

Grammable is a small photo-sharing Rails application. Signed-in users post
"grams" (a message plus an uploaded image), edit their message and delete
them; anyone can browse the feed and look at a single gram. This project
models the one piece of logic in it: `GramsController`, which gates every
mutation behind authentication, a tolerant lookup and an owner check, and the
`Gram` record's presence validations.

The model is functional. The database is a finite map from primary key to
gram plus the auto-increment counter that hands out fresh keys
(`Stores.Store`). The signed-in user is an explicit `Option<UserId>`
argument. Each controller action is a pure function from caller, store and
request parameters to a `Response` and, for the mutating actions, the new
store.

- `text.dfy` (`Text`): `String#blank?` over Unicode white space, and
  `titleize` for snake_case symbol names.
- `gram.dfy` (`Grams`): the record, its owner and its validity.
- `store.dfy` (`Stores`): the store, the tolerant `find_by_id`, and
  insert/update/delete. It also holds the invariant every reachable store
  keeps: keys lie below the counter and every stored gram is valid.
- `controller.dfy` (`GramsController`): responses, `render_status`, strong
  parameters, the seven actions and `Handle`. `Handle` runs the
  `before_action` gate and then dispatches.
- `safety.dfy` (`ControllerSafety`): properties of one request across all
  actions, and the request sequences the controller tests describe.
- `traces.dfy` (`Traces`): runs of many requests from many callers, with
  inductive proofs that the safety properties hold along any run.

Modelling assumptions:

- A record is written to the store only when it is valid. `create` and
  `update_attributes` go through ActiveRecord's `save`, which refuses an
  invalid record. The controller tests at
  `spec/controllers/grams_controller_spec.rb` lines 72-79 and 172-180 rely on
  this.
- Strong parameters permit only `:message`, so the form never delivers an
  image to `create`. The model follows that code. `GramsController.Create`
  therefore takes the image as a separate argument, `upload`, standing for
  what the image uploader stored. Its success is stated conditionally on
  validity, not as the unconditional redirect the controller test expects
  (see Findings).
- A missing or empty `gram` hash makes `params.require(:gram)` raise
  `ParameterMissing`, which Rails answers with 400 (`BadRequest`). In
  `update`, this happens only after the lookup and the owner check.

## Model

| member | source | states |
|---|---|---|
| Text.Titleize | app/controllers/grams_controller.rb:62 | the titleized name has the input's length; underscores become spaces and the first letter of each word is upper-cased |
| GramsController.RenderStatus | app/controllers/grams_controller.rb:61-63 | a status-only response carries its own status code, with body "Not Found :<" for 404 and "Forbidden :<" for 403 |
| Grams.Valid | app/models/gram.rb:1-4 | a gram is valid exactly when its message is non-blank and its image is present; an empty message or a missing image is invalid; nothing else is checked |
| Stores.Lookup | app/controllers/grams_controller.rb:21-22 | lookup answers a gram exactly when the key is stored, and that gram is the stored one; an unknown key gives absence, not failure |
| Stores.Insert | app/controllers/grams_controller.rb:12 | a created gram gets the counter's key, which a well-formed store does not hold; the count grows by one; nothing else changes; a valid gram keeps the store well-formed |
| Stores.Replace | app/controllers/grams_controller.rb:37 | an update rewrites only the given key; the key set and the counter are unchanged |
| Stores.Remove | app/controllers/grams_controller.rb:50 | a destroy removes exactly the given key and shrinks the count by one; every other gram is unchanged and the store stays well-formed |
| GramsController.Params | app/controllers/grams_controller.rb:57-59 | strong parameters fail exactly when the gram hash is missing or empty; otherwise only the message field comes through |
| GramsController.Assign | app/controllers/grams_controller.rb:37 | assigning permitted attributes never changes owner or image, and a permitted message replaces the old one |
| GramsController.Authorize | app/controllers/grams_controller.rb:33-35 | access is granted exactly to the owner of an existing gram; an unknown key is "Not Found :<" whoever asks, and so the not-found check precedes the owner check; a gram owned by someone else is "Forbidden :<" |
| GramsController.Index | app/controllers/grams_controller.rb:4-5 | the feed answers 200 |
| GramsController.New | app/controllers/grams_controller.rb:7-9 | the new form starts blank and without an image |
| GramsController.Show | app/controllers/grams_controller.rb:20-24 | show renders exactly when the key is stored, with that gram; otherwise 404 "Not Found :<" |
| GramsController.Edit | app/controllers/grams_controller.rb:26-30 | edit renders the form exactly for the owner of an existing gram; unknown key gives 404, someone else's gram gives 403 |
| GramsController.Create | app/controllers/grams_controller.rb:11-17 | create succeeds exactly when the message is non-blank and an image was uploaded. On success it stores a gram under a fresh key, with that message and image, owned by the caller, which becomes the newest gram and leaves every existing gram in place. Otherwise the store is unchanged (422, or 400 without params) |
| GramsController.CreateAsWritten | app/controllers/grams_controller.rb:11-17 | create as the code is written can never redirect and never changes the store; with parameters it always answers 422 |
| GramsController.Update | app/controllers/grams_controller.rb:32-44 | 404 and 403 leave the store unchanged; an owner who sends no gram hash gets 400 with the store unchanged. Any other failed owner update answers 422 by re-rendering the edit form with the submitted attributes assigned, and the store is unchanged. Success happens exactly when the owner submits params and the resulting message is non-blank and the image present; it changes only that gram's message, and owner, image, key set and other grams stay the same. A blank message gives 422 with the store unchanged |
| GramsController.Destroy | app/controllers/grams_controller.rb:46-52 | destroy succeeds exactly for the owner of an existing gram and then removes exactly that key. 404 and 403 leave the store unchanged |
| GramsController.Handle | app/controllers/grams_controller.rb:2 | a request is redirected to login exactly when it targets a gated action and nobody is signed in. That redirect comes before any lookup and leaves the store unchanged, and a signed-in caller always passes the gate. Index and show need no login and never write; show of a stored gram renders for any caller. A changed store implies a redirect to root, by the creator or the gram's owner |
| ControllerSafety.HandleDispatch | app/controllers/grams_controller.rb:2-35 | after the gate: show answers exactly `Show` for any caller, and a signed-in new renders the blank form. A signed-in edit, update or destroy gives 404 for an unknown key and 403 for someone else's gram, always with the store unchanged. An owner's edit renders the form with the stored gram |
| ControllerSafety.HandleFrame | app/controllers/grams_controller.rb:11-52 | a request writes no key other than the one it targets, or the fresh key for a create |
| ControllerSafety.HandlePreservesWellformed | app/controllers/grams_controller.rb:11-44 | from a well-formed store every request leaves a well-formed store, so only valid grams are ever persisted; the key counter never decreases |
| ControllerSafety.HandleKeepsOwnersAndImages | app/models/gram.rb:5 | no request reassigns the owner or the image of a gram that survives it |
| ControllerSafety.HandleSparesOthersGrams | app/controllers/grams_controller.rb:26-52 | a request from anyone but a gram's owner leaves that gram present and unchanged |
| ControllerSafety.HandleNeverRevivesKeys | app/controllers/grams_controller.rb:12 | an absent key below the store's counter stays absent after any request: create only ever stores under the counter's key, and the counter (the database's auto-increment sequence) never moves back |
| ControllerSafety.OnlyMessageIsPermitted | app/controllers/grams_controller.rb:57-59 | create and update give the same outcome for any two non-empty gram hashes that agree on the message, so a submitted owner or image field has no effect |
| ControllerSafety.DestroyThenShowIsNotFound | spec/controllers/grams_controller_spec.rb:20-28 | after the owner destroys a gram, showing it answers 404 "Not Found :<" |
| ControllerSafety.BlankUpdateKeepsMessage | spec/controllers/grams_controller_spec.rb:72-79 | an update with a blank message answers 422 and the gram still shows its old message |
| ControllerSafety.CreateThenNewestGram | spec/controllers/grams_controller_spec.rb:159-170 | creating "Hello!" with an uploaded image redirects; the newest gram then has that message and is owned by the caller |
| ControllerSafety.EmptyCreateIsRejected | spec/controllers/grams_controller_spec.rb:172-180 | a create with an empty message answers 422 and the number of stored grams is unchanged |
| ControllerSafety.CreateAsWrittenRejectsHello | spec/controllers/grams_controller_spec.rb:159-170 | on the test's own request, the create as written answers 422 and stores nothing |
| Traces.RunPreservesWellformed | app/models/gram.rb:1-4 | after any run of requests from a well-formed store, every stored gram is valid and keys stay below the counter |
| Traces.AnonymousRunIsInert | app/controllers/grams_controller.rb:2 | any run of requests from signed-out callers leaves the store exactly as it was |
| Traces.OthersGramsSurvive | app/controllers/grams_controller.rb:26-52 | whatever one user does, grams owned by anyone else survive unchanged |
| Traces.DeletedKeysStayDeleted | app/controllers/grams_controller.rb:12 | an absent key below the store's counter, such as a destroyed one, stays absent for the rest of any run, because creates only use the ever-growing counter |
| Traces.RunKeepsOwnersAndImages | app/models/gram.rb:5 | over any run, a gram present at the start and at the end keeps its owner and its image |

## Left out

- Devise and `authenticate_user!`: the session is not modelled; the
  signed-in user is the `caller` argument, and the gate's redirect is the
  `RedirectToLogin` response.
- CarrierWave (`mount_uploader`, app/models/gram.rb:7) and file storage: an
  image is an opaque `ImageRef`, and `Create` receives the stored upload as
  an argument.
- ActiveRecord's casting of the id parameter (`find_by_id('SPACEPOPE')`):
  ids are natural-number keys, and a malformed id is a key that is not
  stored. SQL and transactions are not modelled. The auto-increment counter
  stands for key allocation.
- Keys are never reused because the model assumes the database sequence is
  never rewound: `Stores.Insert` takes the counter's key and `Stores.Remove`
  leaves the counter alone. Nothing in `destroy` itself ensures this, and
  the model does not cover a database that hands out any unused key.
- View templates, routes and redirect URLs: a response names the template or
  the redirect target only. The feed page carries no data, because `index`
  loads nothing.
- CSRF protection (app/controllers/application_controller.rb:2), which is
  request plumbing.
- The second `render_status` in app/controllers/application_controller.rb:4-6.
  The private copy in the controller shadows it, and that copy is the one
  modelled.
- Concurrent requests: the model is sequential, and races between updates
  and destroys are not represented.
- Parameter values that are not strings (nested hashes, arrays) and a `gram`
  parameter that is not a hash are not modelled.
- A missing message on create is nil in Rails and "" here. Both are blank, so
  validity and the response are the same.
- `belongs_to :user` also validates that the owner exists. Here the owner is
  always a user id, and users are never deleted in this model.
- Text.Titleize: covers lower-case snake_case names only. `humanize`'s
  stripping of a trailing `_id`, acronyms and apostrophe rules are not
  modelled. The two statuses the controller renders are within this range.
- GramsController.Handle: its contract does not restate the frame, store
  invariant and owner properties. Those are stated for every request by the
  `ControllerSafety` lemmas about `Handle`.

## Findings

| source | as written | input that shows it | evidently intended | confidence | as-written member | corrected member |
|---|---|---|---|---|---|---|
| app/controllers/grams_controller.rb:57-59 | `gram_params` permits only `:message`, so `create` builds a gram with no image. The gram then always fails `validates :image, presence: true` (app/models/gram.rb:3), and create can never succeed | a signed-in user posts `gram[message]=Hello!`: the response is 422 and nothing is stored, while spec/controllers/grams_controller_spec.rb:159-170 expects a redirect and a new gram | the uploaded image reaches the new gram, so a non-blank message with an image is stored under the caller and redirects to the feed | not executed; high, since the validation cannot pass without an image | GramsController.CreateAsWritten | GramsController.Create |

=== FILE: controller.dfy ===
/**
 * GramsController: the seven actions, the authentication gate in front of the
 * mutating ones, strong parameters and status-only error responses. Every
 * action is a pure function of the caller, the store and the request
 * parameters; the mutating ones also return the new store.
 */
module GramsController {
  import opened Wrappers
  import opened Text
  import opened Grams
  import opened Stores

  /** The statuses `render_status` is called with. */
  datatype Status = NotFound | Forbidden

  /** The symbol name Rails gives the status (`:not_found`, `:forbidden`). */
  function StatusName(s: Status): string {
    match s
    case NotFound => "not_found"
    case Forbidden => "forbidden"
  }

  function StatusCode(s: Status): nat {
    match s
    case NotFound => 404
    case Forbidden => 403
  }

  /** The templates an action can render. */
  datatype Page =
    | Feed
    | NewForm(message: string, image: Option<ImageRef>)
    | Detail(id: Id, gram: Gram)
    | EditForm(id: Id, gram: Gram)

  datatype Response =
    | RedirectToLogin
    | RedirectToRoot
    | Rendered(page: Page)
    | Unprocessable(form: Page)
    | Plain(status: Status, body: string)
    | BadRequest

  /** The HTTP status code each response carries. */
  function HttpCode(r: Response): nat {
    match r
    case RedirectToLogin => 302
    case RedirectToRoot => 302
    case Rendered(_) => 200
    case Unprocessable(_) => 422
    case Plain(s, _) => StatusCode(s)
    case BadRequest => 400
  }

  /** What an action answers and the store it leaves behind. */
  datatype Outcome = Outcome(response: Response, store: Store)

  /** `render_status`: a plain-text body made of the titleized status name and " :<". */
  function RenderStatus(s: Status): (r: Response)
    ensures r.Plain? && r.status == s
    ensures HttpCode(r) == StatusCode(s)
    ensures s == NotFound ==> r.body == "Not Found :<"
    ensures s == Forbidden ==> r.body == "Forbidden :<"
  {
    Plain(s, Titleize(StatusName(s)) + " :<")
  }

  /** The attributes strong parameters let through: `permit(:message)`. */
  datatype GramParams = GramParams(message: Option<string>)

  /**
   * `gram_params`: `require(:gram)` fails when the `gram` hash is missing or
   * empty, and `permit(:message)` drops every other submitted field.
   */
  function Params(gram: Option<map<string, string>>): (p: Option<GramParams>)
    ensures p.None? <==> gram.None? || |gram.value| == 0
    ensures p.Some? ==> (p.value.message.Some? <==> "message" in gram.value)
    ensures p.Some? && "message" in gram.value ==> p.value.message.value == gram.value["message"]
  {
    match gram
    case None => None
    case Some(fields) =>
      if |fields| == 0 then None
      else Some(GramParams(if "message" in fields then Some(fields["message"]) else None))
  }

  /** The record `create` builds for user `u`; an absent message is nil, which is as blank as "". */
  function Draft(u: UserId, p: GramParams, upload: Option<ImageRef>): Gram {
    Gram(p.message.GetOr(""), upload, u)
  }

  /** `update_attributes`: only the permitted attributes are assigned. */
  function Assign(g: Gram, p: GramParams): (g': Gram)
    ensures g'.owner == g.owner && g'.image == g.image
    ensures p.message.Some? ==> g'.message == p.message.value
    ensures p.message.None? ==> g' == g
  {
    match p.message
    case Some(m) => g.(message := m)
    case None => g
  }

  /** The policy shared by edit, update and destroy: only the owner may touch a gram. */
  predicate CanModify(u: UserId, g: Gram) {
    g.owner == u
  }

  /**
   * Lookup followed by the ownership check, in that order: an unknown key is a
   * 404 whoever asks, and a gram of someone else is a 403.
   */
  function Authorize(u: UserId, s: Store, id: Id): (r: Result<Gram, Response>)
    ensures r.Success? <==> id in s.grams && s.grams[id].owner == u
    ensures r.Success? ==> r.value == s.grams[id]
    ensures id !in s.grams ==> r == Failure(Plain(NotFound, "Not Found :<"))
    ensures id in s.grams && s.grams[id].owner != u ==> r == Failure(Plain(Forbidden, "Forbidden :<"))
  {
    match Lookup(s, id)
    case None => Failure(RenderStatus(NotFound))
    case Some(g) =>
      if !CanModify(u, g) then Failure(RenderStatus(Forbidden)) else Success(g)
  }

  /** `index`: the feed, for anyone. */
  function Index(): (r: Response)
    ensures HttpCode(r) == 200
  {
    Rendered(Feed)
  }

  /** `new`: an empty creation form. */
  function New(): (r: Response)
    ensures r.Rendered? && r.page.NewForm? && Blank(r.page.message) && r.page.image.None?
  {
    Rendered(NewForm("", None))
  }

  /** `show`: the gram under `id`, or a 404. */
  function Show(s: Store, id: Id): (r: Response)
    ensures r.Rendered? <==> id in s.grams
    ensures r.Rendered? ==> r.page.Detail? && r.page.id == id && r.page.gram == s.grams[id]
    ensures !r.Rendered? ==> r == Plain(NotFound, "Not Found :<") && HttpCode(r) == 404
  {
    match Lookup(s, id)
    case None => RenderStatus(NotFound)
    case Some(g) => Rendered(Detail(id, g))
  }

  /** `edit`: the pre-filled form, for the owner only. */
  function Edit(u: UserId, s: Store, id: Id): (r: Response)
    ensures id !in s.grams ==> r == Plain(NotFound, "Not Found :<")
    ensures id in s.grams && s.grams[id].owner != u ==> r == Plain(Forbidden, "Forbidden :<")
    ensures r.Rendered? <==> id in s.grams && s.grams[id].owner == u
    ensures r.Rendered? ==> r.page == EditForm(id, s.grams[id])
  {
    match Authorize(u, s, id)
    case Failure(denied) => denied
    case Success(g) => Rendered(EditForm(id, g))
  }

  /**
   * `create`: the gram the signed-in user `u` submits, with the image the
   * uploader stored. It is persisted, under a fresh key, exactly when it is valid.
   */
  function Create(u: UserId, s: Store, gram: Option<map<string, string>>, upload: Option<ImageRef>): (o: Outcome)
    ensures Params(gram).None? ==> o == Outcome(BadRequest, s)
    ensures o.response == RedirectToRoot <==>
      && gram.Some? && "message" in gram.value
      && Present(gram.value["message"]) && upload.Some?
    ensures o.response != RedirectToRoot ==> o.store == s
    ensures o.response.Unprocessable? ==> Params(gram).Some? && o.response.form.NewForm?
    ensures Params(gram).Some? && o.response != RedirectToRoot ==>
      o.response.Unprocessable? && HttpCode(o.response) == 422
    ensures o.response == RedirectToRoot ==>
      && o.store.grams.Keys == s.grams.Keys + {s.nextId}
      && o.store.grams[s.nextId] == Gram(gram.value["message"], upload, u)
      && o.store.nextId == s.nextId + 1
      && AgreeOutside(s, o.store, {s.nextId})
    ensures Wellformed(s) ==>
      forall k :: k in s.grams ==> k in o.store.grams && o.store.grams[k] == s.grams[k]
    ensures o.response == RedirectToRoot && Wellformed(s) ==>
      && s.nextId !in s.grams
      && |o.store.grams| == |s.grams| + 1
      && (forall k :: k in o.store.grams ==> k <= s.nextId)
  {
    match Params(gram)
    case None => Outcome(BadRequest, s)
    case Some(p) =>
      var g := Draft(u, p, upload);
      if Valid(g) then Outcome(RedirectToRoot, Insert(s, g))
      else Outcome(Unprocessable(NewForm(g.message, g.image)), s)
  }

  /**
   * The controller's `create` with strong parameters taken literally: only
   * the message gets through, so the record never carries an image.
   */
  function CreateAsWritten(u: UserId, s: Store, gram: Option<map<string, string>>): (o: Outcome)
    ensures o.store == s
    ensures o.response != RedirectToRoot
    ensures Params(gram).Some? ==> HttpCode(o.response) == 422
  {
    match Params(gram)
    case None => Outcome(BadRequest, s)
    case Some(p) =>
      var g := Draft(u, p, None);
      if Valid(g) then Outcome(RedirectToRoot, Insert(s, g))
      else Outcome(Unprocessable(NewForm(g.message, g.image)), s)
  }

  /**
   * `update`: the owner replaces the message of an existing gram; the new
   * record is persisted only if it is still valid.
   */
  function Update(u: UserId, s: Store, id: Id, gram: Option<map<string, string>>): (o: Outcome)
    ensures id !in s.grams ==> o == Outcome(Plain(NotFound, "Not Found :<"), s)
    ensures id in s.grams && s.grams[id].owner != u ==>
      o == Outcome(Plain(Forbidden, "Forbidden :<"), s)
    ensures id in s.grams && s.grams[id].owner == u && Params(gram).None? ==>
      o == Outcome(BadRequest, s)
    ensures id in s.grams && s.grams[id].owner == u && Params(gram).Some? && o.response != RedirectToRoot ==>
      o.response.Unprocessable? && HttpCode(o.response) == 422
    ensures o.response.Unprocessable? ==>
      && id in s.grams && Params(gram).Some?
      && o.response.form == EditForm(id, Assign(s.grams[id], Params(gram).value))
    ensures o.response != RedirectToRoot ==> o.store == s
    ensures o.response == RedirectToRoot <==>
      && id in s.grams && s.grams[id].owner == u
      && gram.Some? && |gram.value| > 0
      && Present(if "message" in gram.value then gram.value["message"] else s.grams[id].message)
      && s.grams[id].image.Some?
    ensures o.response == RedirectToRoot ==>
      && o.store.nextId == s.nextId
      && o.store.grams.Keys == s.grams.Keys
      && AgreeOutside(s, o.store, {id})
      && o.store.grams[id].owner == s.grams[id].owner
      && o.store.grams[id].image == s.grams[id].image
      && o.store.grams[id].message ==
           (if "message" in gram.value then gram.value["message"] else s.grams[id].message)
    ensures id in s.grams && s.grams[id].owner == u && gram.Some?
            && "message" in gram.value && Blank(gram.value["message"]) ==>
      o.response.Unprocessable? && HttpCode(o.response) == 422 && o.store == s
  {
    match Authorize(u, s, id)
    case Failure(denied) => Outcome(denied, s)
    case Success(g) =>
      match Params(gram)
      case None => Outcome(BadRequest, s)
      case Some(p) =>
        var g' := Assign(g, p);
        if Valid(g') then Outcome(RedirectToRoot, Replace(s, id, g'))
        else Outcome(Unprocessable(EditForm(id, g')), s)
  }

  /** `destroy`: the owner deletes a gram. */
  function Destroy(u: UserId, s: Store, id: Id): (o: Outcome)
    ensures id !in s.grams ==> o == Outcome(Plain(NotFound, "Not Found :<"), s)
    ensures id in s.grams && s.grams[id].owner != u ==>
      o == Outcome(Plain(Forbidden, "Forbidden :<"), s)
    ensures o.response == RedirectToRoot <==> id in s.grams && s.grams[id].owner == u
    ensures o.response != RedirectToRoot ==> o.store == s
    ensures o.response == RedirectToRoot ==>
      && id !in o.store.grams
      && |o.store.grams| == |s.grams| - 1
      && o.store.nextId == s.nextId
      && AgreeOutside(s, o.store, {id})
  {
    match Authorize(u, s, id)
    case Failure(denied) => Outcome(denied, s)
    case Success(_) => Outcome(RedirectToRoot, Remove(s, id))
  }

  /** A request as the router delivers it to the controller. */
  datatype Request =
    | GetIndex
    | GetNew
    | PostCreate(gram: Option<map<string, string>>, upload: Option<ImageRef>)
    | GetShow(id: Id)
    | GetEdit(id: Id)
    | PatchUpdate(id: Id, gram: Option<map<string, string>>)
    | Delete(id: Id)

  /** The actions listed in `before_action :authenticate_user!, only: [...]`. */
  predicate NeedsLogin(req: Request) {
    req.GetNew? || req.PostCreate? || req.GetEdit? || req.PatchUpdate? || req.Delete?
  }

  /** The keys a request may write: the targeted gram, or the fresh key for a create. */
  function Touched(s: Store, req: Request): set<Id> {
    match req
    case PostCreate(_, _) => {s.nextId}
    case PatchUpdate(id, _) => {id}
    case Delete(id) => {id}
    case _ => {}
  }

  /**
   * One request: the authentication gate runs first, then the action. The
   * contract collects the safety properties of the whole controller.
   */
  function Handle(caller: Option<UserId>, s: Store, req: Request): (o: Outcome)
    ensures NeedsLogin(req) && caller.None? ==> o == Outcome(RedirectToLogin, s)
    ensures o.response == RedirectToLogin <==> NeedsLogin(req) && caller.None?
    ensures !NeedsLogin(req) ==> o.store == s
    ensures req.GetShow? && req.id in s.grams ==> o.response.Rendered?
    ensures o.store != s ==>
      && o.response == RedirectToRoot
      && caller.Some?
      && (|| req.PostCreate?
          || ((req.PatchUpdate? || req.Delete?) && req.id in s.grams && s.grams[req.id].owner == caller.value))
  {
    if NeedsLogin(req) && caller.None? then Outcome(RedirectToLogin, s)
    else
      match req
      case GetIndex => Outcome(Index(), s)
      case GetShow(id) => Outcome(Show(s, id), s)
      case GetNew => Outcome(New(), s)
      case GetEdit(id) => Outcome(Edit(caller.value, s, id), s)
      case PostCreate(gram, upload) => Create(caller.value, s, gram, upload)
      case PatchUpdate(id, gram) => Update(caller.value, s, id, gram)
      case Delete(id) => Destroy(caller.value, s, id)
  }
}

=== FILE: gram.dfy ===
/**
 * The Gram record: a message, an uploaded image and the user that owns it,
 * together with the validations the record declares.
 */
module Grams {
  import opened Wrappers
  import opened Text

  /** Primary keys of grams. */
  type Id = nat

  /** Primary keys of users. */
  type UserId = nat

  /** What the image uploader hands back for a stored file; its contents are not modelled. */
  datatype ImageRef = Upload(filename: string)

  /**
   * A gram. `belongs_to :user` gives exactly one owner, and the type makes
   * that owner always present.
   */
  datatype Gram = Gram(message: string, image: Option<ImageRef>, owner: UserId)

  /** The attributes that carry a presence validation. */
  datatype Attribute = Message | Image

  /** The errors `valid?` collects: one entry per failing `validates ..., presence: true`. */
  function Errors(g: Gram): set<Attribute> {
    (if Blank(g.message) then {Message} else {})
    + (if g.image.None? then {Image} else {})
  }

  /**
   * `valid?`: no validation produced an error. The contract restates this as the
   * conjunction of the two presence checks, with nothing else constraining a gram.
   */
  function Valid(g: Gram): (ok: bool)
    ensures ok <==> Present(g.message) && g.image.Some?
    ensures g.message == [] ==> !ok
    ensures g.image.None? ==> !ok
  {
    Errors(g) == {}
  }
}

=== FILE: safety.dfy ===
/**
 * Properties of a single request that hold across all actions: what a request
 * may write, that it keeps the store invariant, and that owners and images
 * are never reassigned. Also the request sequences the controller's
 * behaviour is usually described by (destroy then show, a rejected update,
 * a create followed by a lookup of the newest gram).
 */
module ControllerSafety {
  import opened Wrappers
  import opened Text
  import opened Grams
  import opened Stores
  import opened GramsController

  /** Which response each request gets, once the gate has let a signed-in caller through. */
  lemma HandleDispatch(caller: Option<UserId>, s: Store, req: Request)
    ensures req.GetShow? ==> Handle(caller, s, req) == Outcome(Show(s, req.id), s)
    ensures req.GetNew? && caller.Some? ==> Handle(caller, s, req) == Outcome(New(), s)
    ensures caller.Some? && (req.GetEdit? || req.PatchUpdate? || req.Delete?) && req.id !in s.grams ==>
      Handle(caller, s, req) == Outcome(Plain(NotFound, "Not Found :<"), s)
    ensures caller.Some? && (req.GetEdit? || req.PatchUpdate? || req.Delete?)
            && req.id in s.grams && s.grams[req.id].owner != caller.value ==>
      Handle(caller, s, req) == Outcome(Plain(Forbidden, "Forbidden :<"), s)
    ensures caller.Some? && req.GetEdit? && req.id in s.grams && s.grams[req.id].owner == caller.value ==>
      Handle(caller, s, req) == Outcome(Rendered(EditForm(req.id, s.grams[req.id])), s)
  {
  }

  /** A request writes at most the key it targets (the fresh key, for a create). */
  lemma HandleFrame(caller: Option<UserId>, s: Store, req: Request)
    ensures AgreeOutside(s, Handle(caller, s, req).store, Touched(s, req))
  {
  }

  /**
   * From a well-formed store every request leads to a well-formed store: only
   * valid grams are persisted and the key counter never moves back.
   */
  lemma HandlePreservesWellformed(caller: Option<UserId>, s: Store, req: Request)
    requires Wellformed(s)
    ensures Wellformed(Handle(caller, s, req).store)
    ensures s.nextId <= Handle(caller, s, req).store.nextId
  {
  }

  /** No request reassigns the owner or the image of a gram that survives it. */
  lemma HandleKeepsOwnersAndImages(caller: Option<UserId>, s: Store, req: Request)
    requires Wellformed(s)
    ensures forall k :: k in s.grams && k in Handle(caller, s, req).store.grams ==>
      && Handle(caller, s, req).store.grams[k].owner == s.grams[k].owner
      && Handle(caller, s, req).store.grams[k].image == s.grams[k].image
  {
  }

  /** A request by anyone other than a gram's owner leaves that gram in place and unchanged. */
  lemma HandleSparesOthersGrams(caller: Option<UserId>, s: Store, req: Request, k: Id)
    requires Wellformed(s)
    requires k in s.grams && caller != Some(s.grams[k].owner)
    ensures k in Handle(caller, s, req).store.grams
    ensures Handle(caller, s, req).store.grams[k] == s.grams[k]
  {
  }

  /** A key below the counter that is absent stays absent: keys are never reused. */
  lemma HandleNeverRevivesKeys(caller: Option<UserId>, s: Store, req: Request, k: Id)
    requires Wellformed(s)
    requires k < s.nextId && k !in s.grams
    ensures k !in Handle(caller, s, req).store.grams
  {
  }

  /** Two submitted `gram` hashes that strong parameters cannot tell apart. */
  predicate SamePermitted(f1: map<string, string>, f2: map<string, string>) {
    && |f1| > 0 && |f2| > 0
    && ("message" in f1 <==> "message" in f2)
    && ("message" in f1 ==> f1["message"] == f2["message"])
  }

  /**
   * Only `:message` reaches the record: fields such as a forged owner or an
   * image name submitted with the form make no difference to create or update.
   */
  lemma OnlyMessageIsPermitted(u: UserId, s: Store, id: Id, f1: map<string, string>, f2: map<string, string>, upload: Option<ImageRef>)
    requires SamePermitted(f1, f2)
    ensures Create(u, s, Some(f1), upload) == Create(u, s, Some(f2), upload)
    ensures Update(u, s, id, Some(f1)) == Update(u, s, id, Some(f2))
  {
  }

  /** After the owner destroys a gram, showing it is a 404. */
  lemma DestroyThenShowIsNotFound(u: UserId, s: Store, id: Id)
    requires id in s.grams && s.grams[id].owner == u
    ensures Destroy(u, s, id).response == RedirectToRoot
    ensures Show(Destroy(u, s, id).store, id) == Plain(NotFound, "Not Found :<")
  {
  }

  /** An update with a blank message is refused with 422 and the stored message survives. */
  lemma BlankUpdateKeepsMessage(u: UserId, s: Store, id: Id, blank: string)
    requires id in s.grams && s.grams[id].owner == u
    requires Blank(blank)
    ensures HttpCode(Update(u, s, id, Some(map["message" := blank])).response) == 422
    ensures Show(Update(u, s, id, Some(map["message" := blank])).store, id)
            == Rendered(Detail(id, s.grams[id]))
  {
  }

  /**
   * Creating the gram "Hello!" with an uploaded image as user `u` redirects to
   * the feed, and the newest gram then carries that message and that owner.
   */
  lemma CreateThenNewestGram(u: UserId, s: Store, img: ImageRef)
    requires Wellformed(s)
    ensures var o := Create(u, s, Some(map["message" := "Hello!"]), Some(img));
      && o.response == RedirectToRoot
      && o.store.grams[s.nextId].message == "Hello!"
      && o.store.grams[s.nextId].owner == u
      && (forall k :: k in o.store.grams ==> k <= s.nextId)
  {
    var msg := "Hello!";
    assert !IsSpace(msg[0]);
  }

  /**
   * A signed-in user who submits an empty message gets 422 and no gram is
   * stored, whatever the uploader delivered.
   */
  lemma EmptyCreateIsRejected(u: UserId, s: Store, upload: Option<ImageRef>)
    ensures var o := Create(u, s, Some(map["message" := ""]), upload);
      && o.response.Unprocessable?
      && HttpCode(o.response) == 422
      && o.store == s
      && |o.store.grams| == |s.grams|
  {
  }

  /**
   * The controller's `create` with strong parameters taken literally, on the
   * request of the controller test for a successful create: a signed-in user
   * posts the message "Hello!" and gets 422 and no new gram, where the test
   * expects a redirect.
   */
  lemma CreateAsWrittenRejectsHello(u: UserId)
    ensures var o := CreateAsWritten(u, Empty(), Some(map["message" := "Hello!"]));
      && HttpCode(o.response) == 422
      && o.response != RedirectToRoot
      && |o.store.grams| == 0
  {
  }
}

=== FILE: store.dfy ===
/**
 * The persistence layer as a finite map from primary key to gram, with the
 * auto-increment counter the database uses to hand out fresh keys.
 */
module Stores {
  import opened Wrappers
  import opened Grams

  datatype Store = Store(grams: map<Id, Gram>, nextId: Id)

  /** The database before any gram is created. */
  function Empty(): (s: Store)
    ensures |s.grams| == 0
    ensures Wellformed(s)
  {
    Store(map[], 0)
  }

  /**
   * The invariant of every reachable store: keys lie below the counter (so the
   * counter is always fresh) and only valid grams are ever persisted.
   */
  predicate Wellformed(s: Store) {
    forall id :: id in s.grams ==> id < s.nextId && Valid(s.grams[id])
  }

  /** `find_by_id`: a tolerant lookup, absent rather than failing for unknown keys. */
  function Lookup(s: Store, id: Id): (r: Option<Gram>)
    ensures r.Some? <==> id in s.grams
    ensures r.Some? ==> r.value == s.grams[id]
  {
    if id in s.grams then Some(s.grams[id]) else None
  }

  /** Every key outside `ids` is present in both stores or in neither, with the same gram. */
  ghost predicate AgreeOutside(s: Store, s': Store, ids: set<Id>) {
    forall k :: k !in ids ==>
      && (k in s.grams <==> k in s'.grams)
      && (k in s.grams ==> s'.grams[k] == s.grams[k])
  }

  /** INSERT: the gram is stored under the next key and the counter moves on. */
  function Insert(s: Store, g: Gram): (s': Store)
    ensures s'.nextId == s.nextId + 1
    ensures s'.grams.Keys == s.grams.Keys + {s.nextId}
    ensures s'.grams[s.nextId] == g
    ensures AgreeOutside(s, s', {s.nextId})
    ensures Wellformed(s) ==> s.nextId !in s.grams && |s'.grams| == |s.grams| + 1
    ensures Wellformed(s) && Valid(g) ==> Wellformed(s')
  {
    Store(s.grams[s.nextId := g], s.nextId + 1)
  }

  /** UPDATE of an existing row. */
  function Replace(s: Store, id: Id, g: Gram): (s': Store)
    requires id in s.grams
    ensures s'.nextId == s.nextId
    ensures s'.grams.Keys == s.grams.Keys
    ensures s'.grams[id] == g
    ensures AgreeOutside(s, s', {id})
    ensures Wellformed(s) && Valid(g) ==> Wellformed(s')
  {
    Store(s.grams[id := g], s.nextId)
  }

  /** DELETE of an existing row; the counter is not rewound. */
  function Remove(s: Store, id: Id): (s': Store)
    requires id in s.grams
    ensures s'.nextId == s.nextId
    ensures s'.grams.Keys == s.grams.Keys - {id}
    ensures |s'.grams| == |s.grams| - 1
    ensures AgreeOutside(s, s', {id})
    ensures Wellformed(s) ==> Wellformed(s')
  {
    Store(s.grams - {id}, s.nextId)
  }
}

=== FILE: text.dfy ===
/**
 * The two string helpers of ActiveSupport the controller and the model rely on:
 * `blank?`/`present?` (used by `validates ..., presence: true`) and
 * `titleize` (used to build the body of a status-only response).
 */
module Text {

  /** Unicode White_Space, the class `[[:space:]]` that `String#blank?` matches. */
  predicate IsSpace(c: char) {
    var n := c as int;
    || 0x09 <= n <= 0x0D
    || n == 0x20
    || n == 0x85
    || n == 0xA0
    || n == 0x1680
    || 0x2000 <= n <= 0x200A
    || n == 0x2028
    || n == 0x2029
    || n == 0x202F
    || n == 0x205F
    || n == 0x3000
  }

  /** `String#blank?`: empty, or made of white space only. */
  predicate Blank(s: string) {
    forall i :: 0 <= i < |s| ==> IsSpace(s[i])
  }

  /** `present?` is the negation of `blank?`. */
  predicate Present(s: string) {
    !Blank(s)
  }

  predicate IsLower(c: char) {
    'a' <= c <= 'z'
  }

  /** ASCII upper-casing; every other character is left alone. */
  function Upcase(c: char): char {
    if IsLower(c) then (c as int - 32) as char else c
  }

  /** Position `i` of the snake_case word `s` begins a word. */
  predicate StartsWord(s: string, i: int)
    requires 0 <= i < |s|
  {
    i == 0 || s[i - 1] == '_'
  }

  /**
   * What `titleize` puts at position `i` of a snake_case symbol: an underscore
   * becomes a space and the first letter of every word is capitalised.
   */
  function TitleChar(s: string, i: int): char
    requires 0 <= i < |s|
  {
    if s[i] == '_' then ' '
    else if StartsWord(s, i) then Upcase(s[i])
    else s[i]
  }

  /**
   * `titleize` on a lower-case snake_case symbol name, built one character at a
   * time from the end; the contract is the position-wise description above.
   */
  function Titleize(s: string): (t: string)
    ensures |t| == |s|
    ensures forall i :: 0 <= i < |s| ==> t[i] == TitleChar(s, i)
  {
    if |s| == 0 then []
    else
      var front := s[..|s| - 1];
      var last := s[|s| - 1];
      var c := if last == '_' then ' '
               else if |s| == 1 || s[|s| - 2] == '_' then Upcase(last)
               else last;
      Titleize(front) + [c]
  }
}

=== FILE: traces.dfy ===
/**
 * Sequences of requests, each with its own caller, run one after another
 * against the store, and the safety properties that hold for every such run.
 */
module Traces {
  import opened Wrappers
  import opened Grams
  import opened Stores
  import opened GramsController
  import opened ControllerSafety

  /** One request together with the user signed in when it arrives. */
  datatype Call = Call(caller: Option<UserId>, req: Request)

  /** The store after the calls are handled in order. */
  function Run(s: Store, calls: seq<Call>): Store
    decreases |calls|
  {
    if |calls| == 0 then s
    else Run(Handle(calls[0].caller, s, calls[0].req).store, calls[1..])
  }

  /** Every call comes from `u` or from nobody. */
  predicate OnlyBy(calls: seq<Call>, u: UserId) {
    forall i :: 0 <= i < |calls| ==> calls[i].caller.None? || calls[i].caller == Some(u)
  }

  /** Every call is anonymous. */
  predicate Anonymous(calls: seq<Call>) {
    forall i :: 0 <= i < |calls| ==> calls[i].caller.None?
  }

  /** The store invariant holds after any run from a well-formed store, and the key counter only grows. */
  lemma {:induction false} RunPreservesWellformed(s: Store, calls: seq<Call>)
    requires Wellformed(s)
    ensures Wellformed(Run(s, calls))
    ensures s.nextId <= Run(s, calls).nextId
    decreases |calls|
  {
    if |calls| > 0 {
      var s1 := Handle(calls[0].caller, s, calls[0].req).store;
      HandlePreservesWellformed(calls[0].caller, s, calls[0].req);
      RunPreservesWellformed(s1, calls[1..]);
    }
  }

  /** Signed-out visitors can browse, but no run of theirs changes the store. */
  lemma {:induction false} AnonymousRunIsInert(s: Store, calls: seq<Call>)
    requires Anonymous(calls)
    ensures Run(s, calls) == s
    decreases |calls|
  {
    if |calls| > 0 {
      assert calls[0].caller.None?;
      assert Anonymous(calls[1..]) by {
        forall i | 0 <= i < |calls[1..]| ensures calls[1..][i].caller.None? {
          assert calls[1..][i] == calls[i + 1];
        }
      }
      AnonymousRunIsInert(s, calls[1..]);
    }
  }

  /**
   * Whatever user `u` does, grams owned by someone else come out of the run
   * present and untouched.
   */
  lemma {:induction false} OthersGramsSurvive(s: Store, calls: seq<Call>, u: UserId, k: Id)
    requires Wellformed(s)
    requires OnlyBy(calls, u)
    requires k in s.grams && s.grams[k].owner != u
    ensures k in Run(s, calls).grams && Run(s, calls).grams[k] == s.grams[k]
    decreases |calls|
  {
    if |calls| > 0 {
      var c := calls[0];
      var s1 := Handle(c.caller, s, c.req).store;
      HandlePreservesWellformed(c.caller, s, c.req);
      HandleSparesOthersGrams(c.caller, s, c.req, k);
      assert OnlyBy(calls[1..], u) by {
        forall i | 0 <= i < |calls[1..]|
          ensures calls[1..][i].caller.None? || calls[1..][i].caller == Some(u)
        {
          assert calls[1..][i] == calls[i + 1];
        }
      }
      OthersGramsSurvive(s1, calls[1..], u, k);
    }
  }

  /** A key that is below the counter but absent never comes back: keys are not reused. */
  lemma {:induction false} DeletedKeysStayDeleted(s: Store, calls: seq<Call>, k: Id)
    requires Wellformed(s)
    requires k < s.nextId && k !in s.grams
    ensures k !in Run(s, calls).grams
    decreases |calls|
  {
    if |calls| > 0 {
      var c := calls[0];
      var s1 := Handle(c.caller, s, c.req).store;
      HandlePreservesWellformed(c.caller, s, c.req);
      HandleNeverRevivesKeys(c.caller, s, c.req, k);
      DeletedKeysStayDeleted(s1, calls[1..], k);
    }
  }

  /**
   * Ownership is immutable over any run: a gram present before and after it
   * still has the same owner and the same image.
   */
  lemma {:induction false} RunKeepsOwnersAndImages(s: Store, calls: seq<Call>, k: Id)
    requires Wellformed(s)
    requires k in s.grams && k in Run(s, calls).grams
    ensures Run(s, calls).grams[k].owner == s.grams[k].owner
    ensures Run(s, calls).grams[k].image == s.grams[k].image
    decreases |calls|
  {
    if |calls| > 0 {
      var c := calls[0];
      var s1 := Handle(c.caller, s, c.req).store;
      HandlePreservesWellformed(c.caller, s, c.req);
      if k in s1.grams {
        HandleKeepsOwnersAndImages(c.caller, s, c.req);
        RunKeepsOwnersAndImages(s1, calls[1..], k);
      } else {
        DeletedKeysStayDeleted(s1, calls[1..], k);
        assert false;
      }
    }
  }
}

=== FILE: wrappers.dfy ===
/** Optional values and results, used across the model. */
module Wrappers {

  /** An optional value: stands in for Ruby's `nil`. */
  datatype Option<+T> = None | Some(value: T) {

    /** The wrapped value, or `default` when there is none. */
    function GetOr(default: T): T {
      match this
      case Some(v) => v
      case None => default
    }
  }

  /** Either a value or an error. */
  datatype Result<+R, +E> = Success(value: R) | Failure(error: E)
}
